=== FILE: README.md ===
# Movie database proxy: request shaping and error normalisation

This project models the logic layer of a two-tier movie-database proxy in Dafny.
A NestJS gateway forwards popular, search and details requests to a third-party
movie API. A Nuxt server sits in front of the gateway and forwards again. The
model covers:

- the validation-error flattener `formatErrors` (`ValidationErrors`);
- the catch-all exception filter `RequestExceptionFilter`, which picks the
  status, the symbolic code, the message, the `errors` payload and the
  log decision (`ExceptionFilter`);
- the `MovieQueryDTO` defaults and per-field type constraints (`MovieQuery`);
- the gateway's `MovieService`: request construction, the search short-circuit,
  pass-through of success payloads, and opaque operation-specific 500s
  (`MovieService`);
- the frontend server's `movie-details` and `popular-movies` routes (`EdgeProxy`);
- the gateway end to end: validation, service and filter composed, including
  the bootstrap's `exceptionFactory` (`Gateway`).

The HTTP clients (`axios`, `$fetch`) are replaced by a recorded trace of requests
plus an abstract outcome of the one call. Configuration lookups (`tmdb.token`,
`apiBaseUrl`) and the `HttpStatus` enumeration are parameters. Response payloads
are an opaque type parameter, so "passed through unchanged" is a statement about
that parameter. `Base` holds `Option`, `Result`, `Header` and the string `||`
default. `Decimal` renders an integer id as the template literal does.

Behaviour of the code worth knowing before reading the model:

- the search route calls `/search/movie`;
- the popular route sends the query object unchanged, including `query` when one is given;
- `page` is only checked to be an integer, with no lower bound;
- the filter logs exactly status 500; other 5xx statuses are not logged;
- the symbolic code comes from a reverse lookup over the whole status enumeration.

## Model

| member | source | states |
|---|---|---|
| ValidationErrors.FormatErrors | backend/src/utilities/format-errors.utility.ts:3-20 | The record's keys are exactly the property names of the top-level nodes |
| ValidationErrors.Reduce | backend/src/utilities/format-errors.utility.ts:6-19 | Each step keeps every earlier key and adds the node's property; the result's keys are the start keys plus all node properties |
| ValidationErrors.EntryFor | backend/src/utilities/format-errors.utility.ts:7-18 | A node with children maps to a nested record keyed by the children's properties; a leaf maps to its first constraint message, or to undefined when it has no constraint |
| ValidationErrors.ReduceKeepsUntouched | backend/src/utilities/format-errors.utility.ts:6-19 | A key that no node names keeps the accumulator's value |
| ValidationErrors.ReduceLastWins | backend/src/utilities/format-errors.utility.ts:6-19 | After the fold, a property holds the entry of the last node that names it |
| ValidationErrors.LastSiblingWins | backend/src/utilities/format-errors.utility.ts:6-19 | Among siblings that share a property, the later one overwrites the earlier |
| ValidationErrors.FormatErrorsLookup | backend/src/utilities/format-errors.utility.ts:6-19 | A key is present exactly when some node names it, and then it holds the entry of the last such node (a reference definition independent of the fold) |
| ValidationErrors.EmptyInputEmptyRecord | backend/src/utilities/format-errors.utility.ts:6-20 | No validation errors give the empty record |
| ValidationErrors.ChildrenOverrideConstraints | backend/src/utilities/format-errors.utility.ts:7-12 | A node with children is flattened recursively, and its own constraints make no difference |
| ExceptionFilter.FirstKeyFor | backend/src/exceptions/request.exception.ts:49-51 | Finds the first enumeration key whose value is strictly equal to the status, with no earlier match, or reports that none exists |
| ExceptionFilter.FindCode | backend/src/exceptions/request.exception.ts:49-51 | A name is found exactly when some key has the status as its value, and it is the first such key |
| ExceptionFilter.StatusOf | backend/src/exceptions/request.exception.ts:31-34 | The status is `getStatus()` for an HttpException and 500 for anything else |
| ExceptionFilter.ParseHttpError | backend/src/exceptions/request.exception.ts:45-61 | The code is a key whose value is the status, else INTERNAL_SERVER_ERROR. The message is the exception's, or "Internal server error." when empty. `errors` is `getResponse()` for an HttpException and the raw exception otherwise |
| ExceptionFilter.Catch | backend/src/exceptions/request.exception.ts:26-43 | The reply has the chosen status and the parsed envelope, and it is logged exactly when the status is 500 |
| ExceptionFilter.CodeIsFirstMatchingKey | backend/src/exceptions/request.exception.ts:49-54 | When the first key matching the status is non-empty, that key is the response code |
| ExceptionFilter.ReverseKeysNeverMatch | backend/src/exceptions/request.exception.ts:49-51 | The enum's reverse-mapping keys (string values) never match a numeric status, so removing them does not change the lookup |
| ExceptionFilter.CodeDependsOnlyOnStatus | backend/src/exceptions/request.exception.ts:49-54 | Two exceptions answered with the same status get the same code and status, whatever their kind, message or body |
| ExceptionFilter.LoggedExactlyForInternalServerError | backend/src/exceptions/request.exception.ts:38-40 | Logging happens for non-HTTP exceptions and for HttpExceptions with status 500, and never for other 5xx or any 4xx |
| Base.OrDefault | backend/src/exceptions/request.exception.ts:55 | A non-empty string is kept and an empty one is replaced by the fallback, so the result is never empty when the fallback is not |
| Decimal.IntToDecimal | backend/src/modules/movie/movie.service.ts:88 | An id renders as a non-empty decimal string with a leading '-' exactly for negative ids. The string is canonical: digits after an optional '-', no leading zero except "0" itself, and never "-0" |
| Decimal.DigitsRoundTrip | backend/src/modules/movie/movie.service.ts:88 | A digit string without a leading zero is exactly the rendering of its own value |
| Decimal.CanonicalIsRendering | backend/src/modules/movie/movie.service.ts:88 | A canonical string that reads back to an id is exactly the id's rendering, so canonical form plus read-back fixes the string |
| Decimal.NatRoundTrip | backend/src/modules/movie/movie.service.ts:88 | Reading back the digits of a rendered natural number gives that number |
| Decimal.IntRoundTrip | backend/src/modules/movie/movie.service.ts:88 | Parsing a rendered id gives the id back |
| Decimal.IntToDecimalInjective | backend/src/modules/movie/movie.service.ts:88 | Distinct ids render differently |
| MovieQuery.Violations | backend/src/resources/dtos/movie-query.dto.ts:12-45 | There are no errors exactly when every field is accepted, and the erring properties are exactly the rejected fields |
| MovieQuery.Normalise | backend/src/resources/dtos/movie-query.dto.ts:5-46 | Succeeds exactly when every supplied field has its type. Absent fields default to page 1, includeAdult false, language "en-US" and no query. Supplied values are kept. A failure lists exactly the rejected fields |
| MovieQuery.AllDefaults | backend/src/resources/dtos/movie-query.dto.ts:14-45 | An empty query gives page 1, includeAdult false, "en-US" and no search text |
| MovieQuery.NonIntegerPageRejected | backend/src/resources/dtos/movie-query.dto.ts:12-14 | A supplied non-integer page always fails, and the flattened errors give `page` its isInt message |
| MovieQuery.FormattedViolations | backend/src/resources/dtos/movie-query.dto.ts:12-45 | The flattened errors of a query name exactly its rejected fields, each with a message |
| MovieService.Forward | backend/src/modules/movie/movie.service.ts:24-47 | Records exactly one request. Success passes the data through unchanged. Any failure becomes InternalServerError with the given fixed message |
| MovieService.GetPopularMovies | backend/src/modules/movie/movie.service.ts:21-48 | One authorised GET to /movie/popular with the query object as params. Upstream data is returned unchanged. Any failure is "Failed to fetch popular movies" |
| MovieService.SearchMovies | backend/src/modules/movie/movie.service.ts:50-81 | With no search text or empty search text: BadRequest "Search query is required" and no request. Otherwise one authorised GET to /search/movie with the whole query object. Data passes through and failures become "Failed to search for movies" |
| MovieService.GetMovieDetails | backend/src/modules/movie/movie.service.ts:83-109 | One authorised GET with no params, to a path that is "/movie/" followed by a canonical string that parses back to the id. By `Decimal.CanonicalIsRendering` that string is exactly the decimal of the id. Data passes through and failures become "Failed to fetch movie details" |
| MovieService.DetailsPathsDistinct | backend/src/modules/movie/movie.service.ts:87-88 | Distinct ids are fetched from distinct paths |
| MovieService.FailuresAreOpaque | backend/src/modules/movie/movie.service.ts:38-105 | Any two upstream failures of one operation give the same result: the upstream status and message never reach the caller |
| MovieService.AtMostOneAuthorisedCall | backend/src/modules/movie/movie.service.ts:24-96 | Each operation makes at most one request. Each request is a GET carrying the JSON Accept and Content-Type headers and the bearer token |
| EdgeProxy.Remap | frontend/server/api/movie-details.get.ts:24-31 | The statusCode handed to `createError` equals the upstream one, absent included. The message handed to it is the upstream one, or "An unknown error occurred" when empty |
| EdgeProxy.Forward | frontend/server/api/popular-movies.get.ts:8-27 | Records exactly one call. A resolved response is returned unchanged, and a rejection becomes the `createError` options that `Remap` builds |
| EdgeProxy.MovieDetails | frontend/server/api/movie-details.get.ts:3-32 | A missing or empty `id` in the query fails with 400 "ID is required" and makes no call. Otherwise one GET to /movie/{id} on apiBaseUrl with no params or headers. The response passes through, and on failure the statusCode handed to `createError` is the upstream one |
| EdgeProxy.PopularMovies | frontend/server/api/popular-movies.get.ts:3-28 | Without any validation, the incoming query goes as params to /movie/popular on apiBaseUrl with GET and the `accept`/`Content-Type` JSON headers. The response passes through, and on failure the statusCode handed to `createError` is the upstream one |
| EdgeProxy.StatusCodeNotDefaulted | frontend/server/api/popular-movies.get.ts:23-26 | On both routes the statusCode handed to `createError` is the upstream one, absent or not, and both routes hand on the same options for the same rejection |
| Gateway.ExceptionFactory | backend/src/main.ts:49-54 | The envelope has code VALIDATION_ERROR, status 422 and message "Validation error", and its errors hold, per property, the entry of the last node naming it |
| Gateway.ThrownBy | backend/src/modules/movie/movie.service.ts:44-105 | BadRequest is an HttpException with status 400 and InternalServerError one with status 500, each carrying the service's message |
| Gateway.ValidationReplyAsWritten | backend/src/main.ts:43-56 | As written, a validation failure reaches the filter as a plain object. It is answered with status 500 and logged, and the envelope announcing 422 is nested as the raw exception |
| Gateway.NonIntegerPageAnswered500 | backend/src/main.ts:43-56 | For page=1.5 the as-written response status is 500, while its envelope and the corrected reply both say 422 |
| Gateway.ValidationReply | backend/src/main.ts:48-54 | Corrected: a validation failure is answered with 422, code VALIDATION_ERROR, "Validation error" and the flattened errors, and it is not logged |
| Gateway.Respond | backend/src/exceptions/request.exception.ts:26-43 | Service data is answered unchanged. A service exception is answered by the filter with that exception's status and message. The trace is the service's |
| Gateway.Popular | backend/src/modules/movie/movie.controller.ts:16-27 | As written: an invalid query makes no request and is answered with 500 and the message "Validation error", and it is logged. A valid one makes one request to /movie/popular, and upstream data is returned unchanged |
| Gateway.PopularCorrected | backend/src/main.ts:48-54 | Corrected: an invalid query makes no request and is answered with 422 and VALIDATION_ERROR, not logged. A valid one is answered exactly as by the route as written |
| Gateway.Search | backend/src/modules/movie/movie.controller.ts:29-38 | As written: an invalid query makes no request and is answered with 500 and the message "Validation error", and it is logged. A valid query makes no request exactly when its search text is absent or empty |
| Gateway.SearchCorrected | backend/src/main.ts:48-54 | Corrected: an invalid query makes no request and is answered with 422 and VALIDATION_ERROR, not logged. A valid one is answered exactly as by the route as written |
| Gateway.Details | backend/src/modules/movie/movie.controller.ts:40-55 | One request with no params. Data is returned unchanged, and any upstream failure is answered with 500 |
| Gateway.SearchWithoutQueryIsBadRequest | backend/src/modules/movie/movie.service.ts:51-53 | A search without search text is answered with 400, the enumeration's name for 400 and "Search query is required". It is not logged and makes no upstream request |
| Gateway.PopularUpstreamFailureIsHidden | backend/src/modules/movie/movie.service.ts:38-45 | An upstream failure on the popular route is answered with 500 and "Failed to fetch popular movies" and is logged. Two different upstream errors give identical responses |

## Findings

| source | as written | input that shows it | evidently intended | confidence | as-written member | corrected member |
|---|---|---|---|---|---|---|
| backend/src/main.ts:43-56 | `exceptionFactory` returns a plain object, and the validation pipe throws it. The `@Catch()` filter sees something that is not an `HttpException`, so it answers 500 with the enumeration's name for 500 (INTERNAL_SERVER_ERROR) or the INTERNAL_SERVER_ERROR fallback, logs an internal error, and nests the whole envelope, including its `status: 422`, under `errors`. `errorHttpStatusCode: 422` does not apply once a factory is given | `GET /movie/popular?page=1.5` | a 422 response with code VALIDATION_ERROR, message "Validation error" and the flattened errors, not logged as internal | medium; not executed | Gateway.ValidationReplyAsWritten (exhibited by Gateway.NonIntegerPageAnswered500) | Gateway.ValidationReply, Gateway.PopularCorrected, Gateway.SearchCorrected |

`Gateway.Popular` and `Gateway.Search` model the routes as written. `Gateway.PopularCorrected` and `Gateway.SearchCorrected` are the same routes with the corrected reply.

## Left out

- HTTP transport: `axios` and `$fetch`, their timeouts, and async scheduling. Each is one call with an abstract outcome, recorded in a trace.
- `ConfigService`, `useRuntimeConfig`, `getQuery` and `createError` become parameters and result values. An unset token would render as "Bearer undefined"; the model takes the token as a string.
- The contents of log messages in the service and the filter. Only the filter's decision to log is modelled.
- Bootstrap: helmet, CORS, Swagger and `listen`. Also the validation pipe's `whitelist`/`forbidNonWhitelisted` rejection of unknown query properties, which is framework configuration.
- The middlewares (cache-control, request logging), the root `app.controller.ts`, and the module/config wiring.
- Payload DTOs (movie items, results and details) and the frontend interfaces. Payloads are an opaque type parameter.
- The frontend pages and components, and the search-movies proxy route, whose handler is not part of this model.
- Query coercion by the transformation library. For example, Boolean coercion turns the string "false" into true. Inputs arrive already typed.
- MovieQuery.Violations: its constraint messages are the validation library's default texts, not text from this repository.
- Framework exception response bodies (`getResponse()` of Nest's built-in exceptions). `Gateway.ThrownBy` abstracts them as the service failure itself.
- The declared `httpToErrorCodeMap` is never read, so it has no counterpart.
- The `EErrorCode` enumeration is defined in a file that is not part of this model. The model assumes its members `INTERNAL_SERVER_ERROR` and `VALIDATION_ERROR` have string values equal to their names.
- What `createError` builds from its options is library behaviour. The edge-proxy model stops at the options handed to it.
- Key order of the JSON records. The error record is a map. JavaScript's placement of integer-like keys first in `Object.values` is not modelled, since constraint names are identifiers.
- Decimal.IntToDecimal: models the rendering of integral ids whose absolute value is at most 2^53. Above 2^53 a JavaScript number prints the shortest digits that read back to it, not the exact decimal, and larger integers are not representable at all. A `NaN` id ("/movie/NaN") and exponent notation for ids of 10^21 or more are left out too.
- EdgeProxy.MovieDetails: the query object maps each name to one string. A repeated `id` key, which `getQuery` returns as an array, is left out.
- EdgeProxy.PopularMovies: the query object maps each name to one string. Array values for a repeated key, which the route forwards unchanged, are left out.

=== FILE: base.dfy ===
/** Small shared vocabulary: optional values, success-or-failure results,
    HTTP headers, and JavaScript's `||` defaulting on strings. */
module Base {

  /** A value that may be absent (`undefined` or `null` in the source). */
  datatype Option<+T> = None | Some(value: T)

  /** The outcome of an operation that either returns or throws. */
  datatype Result<+T, +E> = Success(value: T) | Failure(error: E)

  /** The media type both tiers send in their JSON headers. */
  const JSON: string := "application/json"

  /** One request header, by name and value. */
  datatype Header = Header(name: string, value: string)

  /** `s || fallback` on a string: the empty string is falsy, so it is
      replaced; an absent string is modelled as the empty one, which `||`
      treats the same way. */
  function OrDefault(s: string, fallback: string): (r: string)
    ensures s != "" ==> r == s
    ensures s == "" ==> r == fallback
    ensures fallback != "" ==> r != ""
  {
    if s == "" then fallback else s
  }
}

=== FILE: decimal.dfy ===
/** Decimal rendering of integers, as a template literal `${id}` renders a
    whole JavaScript number, together with the parser that inverts it. */
module Decimal {
  import opened Base

  predicate IsDigit(c: char) {
    '0' <= c <= '9'
  }

  predicate AllDigits(s: string) {
    forall k :: 0 <= k < |s| ==> IsDigit(s[k])
  }

  function DigitChar(d: nat): (c: char)
    requires d < 10
    ensures IsDigit(c)
    ensures c as int - '0' as int == d
  {
    ('0' as int + d) as char
  }

  function DigitValue(c: char): (d: nat)
    requires IsDigit(c)
    ensures d < 10
  {
    c as int - '0' as int
  }

  /** Shortest decimal form of a natural number: digits only, and no
      leading zero except for zero itself. */
  function NatToDecimal(n: nat): (s: string)
    ensures |s| > 0 && AllDigits(s)
    ensures s[0] == '0' ==> n == 0
    decreases n
  {
    if n < 10 then [DigitChar(n)] else NatToDecimal(n / 10) + [DigitChar(n % 10)]
  }

  /** A non-empty run of digits with no leading zero, "0" itself aside. */
  predicate NoLeadingZero(d: string) {
    |d| > 0 && AllDigits(d) && (d[0] == '0' ==> d == "0")
  }

  /** The form in which JavaScript prints an integral number: an optional
      '-' before digits without a leading zero, and never "-0". */
  predicate Canonical(s: string) {
    if |s| > 0 && s[0] == '-' then NoLeadingZero(s[1..]) && s[1..] != "0"
    else NoLeadingZero(s)
  }

  /** Decimal form of an integer, with a leading '-' when it is negative. */
  function IntToDecimal(i: int): (s: string)
    ensures |s| > 0
    ensures i < 0 <==> s[0] == '-'
    ensures Canonical(s)
  {
    if i < 0 then
      var d := NatToDecimal(-i);
      assert ("-" + d)[1..] == d;
      "-" + d
    else NatToDecimal(i)
  }

  /** The value of a string of decimal digits, most significant first. */
  function DigitsValue(s: string): nat
    requires AllDigits(s)
    decreases |s|
  {
    if |s| == 0 then 0 else 10 * DigitsValue(s[..|s| - 1]) + DigitValue(s[|s| - 1])
  }

  /** Reads an optionally signed decimal integer; anything else is None. */
  function ParseInt(s: string): Option<int> {
    if |s| > 0 && s[0] == '-' then
      if |s| > 1 && AllDigits(s[1..]) then Some(-(DigitsValue(s[1..]) as int)) else None
    else if |s| > 0 && AllDigits(s) then Some(DigitsValue(s))
    else None
  }

  lemma {:induction false} NatRoundTrip(n: nat)
    ensures DigitsValue(NatToDecimal(n)) == n
    decreases n
  {
    if n >= 10 {
      var s := NatToDecimal(n);
      var prefix := NatToDecimal(n / 10);
      assert s[..|s| - 1] == prefix;
      NatRoundTrip(n / 10);
    }
  }

  /** Reading back a rendered integer gives the integer. */
  lemma IntRoundTrip(i: int)
    ensures ParseInt(IntToDecimal(i)) == Some(i)
  {
    if i < 0 {
      var s := IntToDecimal(i);
      assert s[1..] == NatToDecimal(-i);
      NatRoundTrip(-i);
    } else {
      NatRoundTrip(i);
    }
  }

  /** A digit string without a leading zero is the rendering of its own
      value. */
  lemma {:induction false} DigitsRoundTrip(d: string)
    requires NoLeadingZero(d)
    ensures NatToDecimal(DigitsValue(d)) == d
    decreases |d|
  {
    var v := DigitsValue(d);
    if |d| > 1 {
      var p := d[..|d| - 1];
      assert NoLeadingZero(p) by { assert p[0] == d[0]; }
      DigitsRoundTrip(p);
      assert NatToDecimal(0) == "0";
      assert v / 10 == DigitsValue(p) && v % 10 == DigitValue(d[|d| - 1]);
      assert d == p + [d[|d| - 1]];
    }
  }

  /** Only one canonical string reads back to a given integer: the one
      IntToDecimal prints. */
  lemma CanonicalIsRendering(s: string, i: int)
    requires Canonical(s) && ParseInt(s) == Some(i)
    ensures s == IntToDecimal(i)
  {
    if |s| > 0 && s[0] == '-' {
      DigitsRoundTrip(s[1..]);
      assert s == "-" + s[1..];
    } else {
      DigitsRoundTrip(s);
    }
  }

  /** Distinct integers render to distinct strings. */
  lemma IntToDecimalInjective(a: int, b: int)
    ensures IntToDecimal(a) == IntToDecimal(b) ==> a == b
  {
    if IntToDecimal(a) == IntToDecimal(b) {
      IntRoundTrip(a);
      IntRoundTrip(b);
    }
  }
}

=== FILE: edge_proxy.dfy ===
/** The frontend server's proxy routes (`movie-details.get`,
    `popular-movies.get`): they forward to the gateway and re-raise its
    failures with the status code passed through unchanged. `$fetch` is
    replaced by a recorded trace and the abstract outcome of the call. */
module EdgeProxy {
  import opened Base

  /** The incoming query string as `getQuery` returns it: name to value. */
  type QueryObject = map<string, string>

  /** One `$fetch` call: the path, and the options it was given. `params`
      is absent when the call passes none. */
  datatype Fetch = Fetch(path: string, baseURL: string, verb: string, params: Option<QueryObject>, headers: seq<Header>)

  /** What the gateway call produced: the response, or the rejection with
      its `statusCode` (possibly absent) and `message` ("" when absent). */
  datatype FetchReply<D> = Resolved(data: D) | Rejected(statusCode: Option<int>, message: string)

  /** The options the route hands to `createError`; the error that
      `createError` builds from them is library behaviour. */
  datatype RouteError = RouteError(statusCode: Option<int>, message: string)

  /** The route's result together with the calls it made. */
  datatype Handled<D> = Handled(result: Result<D, RouteError>, trace: seq<Fetch>)

  const UNKNOWN_ERROR: string := "An unknown error occurred"
  const ID_REQUIRED: string := "ID is required"
  /** The gateway's routes, as the frontend calls them; MovieService holds
      the upstream provider's paths of the same shape. */
  const POPULAR_PATH: string := "/movie/popular"
  const DETAILS_PREFIX: string := "/movie/"

  /** The catch block shared by both routes: the statusCode handed to
      `createError` is the upstream one as it is, absent or not, and only
      the message is defaulted. */
  function Remap(statusCode: Option<int>, message: string): (e: RouteError)
    ensures e.statusCode == statusCode
    ensures e.message != ""
    ensures message != "" ==> e.message == message
    ensures message == "" ==> e.message == UNKNOWN_ERROR
  {
    RouteError(statusCode, OrDefault(message, UNKNOWN_ERROR))
  }

  /** Records the call and passes the response through, or re-raises. */
  function Forward<D>(call: Fetch, reply: FetchReply<D>): (h: Handled<D>)
    ensures h.trace == [call]
    ensures h.result.Success? <==> reply.Resolved?
    ensures reply.Resolved? ==> h.result.value == reply.data
    ensures reply.Rejected? ==> h.result.error == Remap(reply.statusCode, reply.message)
  {
    match reply
    case Resolved(data) => Handled(Success(data), [call])
    case Rejected(statusCode, message) => Handled(Failure(Remap(statusCode, message)), [call])
  }

  /** The `id` entry of the query, if any. */
  function IdOf(query: QueryObject): Option<string> {
    if "id" in query then Some(query["id"]) else None
  }

  /** The movie-details route: without an id (absent or empty) it fails
      with 400 before any call; otherwise it fetches /movie/{id} from the
      gateway with GET and neither params nor headers. */
  function MovieDetails<D>(apiBaseUrl: string, query: QueryObject, reply: FetchReply<D>): (h: Handled<D>)
    ensures h.trace == [] <==> "id" !in query || query["id"] == ""
    ensures h.trace == [] ==> h.result == Failure(RouteError(Some(400), ID_REQUIRED))
    ensures h.trace != [] ==> h.trace == [Fetch(DETAILS_PREFIX + query["id"], apiBaseUrl, "GET", None, [])]
    ensures h.trace != [] ==> (h.result.Success? <==> reply.Resolved?)
    ensures h.trace != [] && reply.Resolved? ==> h.result.value == reply.data
    ensures h.trace != [] && reply.Rejected? ==> h.result.error == Remap(reply.statusCode, reply.message)
  {
    var id := IdOf(query);
    if id.None? || id.value == "" then Handled(Failure(RouteError(Some(400), ID_REQUIRED)), [])
    else Forward(Fetch(DETAILS_PREFIX + id.value, apiBaseUrl, "GET", None, []), reply)
  }

  /** The popular-movies route: the incoming query, whatever it holds, is
      forwarded as `params` to /movie/popular with the JSON headers. */
  function PopularMovies<D>(apiBaseUrl: string, query: QueryObject, reply: FetchReply<D>): (h: Handled<D>)
    ensures |h.trace| == 1
    ensures h.trace[0].path == POPULAR_PATH && h.trace[0].baseURL == apiBaseUrl && h.trace[0].verb == "GET"
    ensures h.trace[0].params == Some(query)
    ensures h.trace[0].headers == [Header("accept", JSON), Header("Content-Type", JSON)]
    ensures h.result.Success? <==> reply.Resolved?
    ensures reply.Resolved? ==> h.result.value == reply.data
    ensures reply.Rejected? ==> h.result.error.statusCode == reply.statusCode
                                && h.result.error.message == OrDefault(reply.message, UNKNOWN_ERROR)
  {
    Forward(Fetch(POPULAR_PATH, apiBaseUrl, "GET", Some(query),
                  [Header("accept", JSON), Header("Content-Type", JSON)]), reply)
  }

  /** Unlike the gateway, this tier keeps the upstream status visible: on
      both routes the statusCode handed to `createError` is the upstream
      one, and the two routes hand on the same options for the same
      rejection. */
  lemma StatusCodeNotDefaulted<D>(apiBaseUrl: string, query: QueryObject, r: FetchReply<D>)
    requires "id" in query && query["id"] != "" && r.Rejected?
    ensures MovieDetails(apiBaseUrl, query, r).result.error.statusCode == r.statusCode
    ensures PopularMovies(apiBaseUrl, query, r).result.error.statusCode == r.statusCode
    ensures MovieDetails(apiBaseUrl, query, r).result.error == PopularMovies(apiBaseUrl, query, r).result.error
  {
  }
}

=== FILE: exception_filter.dfy ===
/** The global catch-all exception filter (`RequestExceptionFilter`): it
    chooses the response status, names it by a reverse lookup in the
    `HttpStatus` enumeration, defaults the message, picks the `errors`
    payload, and decides whether the failure is logged as internal. */
module ExceptionFilter {
  import opened Base

  /** A value of the `HttpStatus` enumeration object. A numeric TypeScript
      enum also carries reverse-mapping keys ("404" -> "NOT_FOUND"), whose
      values are strings. */
  datatype EnumValue = Num(n: int) | Str(s: string)

  /** The enumeration as `Object.keys` lists it: (key, value) pairs in
      iteration order. Kept abstract: the framework's table is not part of
      this model. */
  type StatusTable = seq<(string, EnumValue)>

  /** What reached the filter: a framework `HttpException` with its status,
      message and response body, or anything else that was thrown, with
      its `message` property (the empty string when it has none) and its
      own value. */
  datatype Thrown<B> =
    | HttpException(status: int, message: string, response: B)
    | NonHttp(message: string, raw: B)

  /** The `errors` field: the exception's `getResponse()` body, or the raw
      thrown value. */
  datatype Errors<B> = ResponseBody(body: B) | RawException(exception: Thrown<B>)

  /** The JSON error envelope. */
  datatype ErrorBody<B> = ErrorBody(code: string, message: string, errors: Errors<B>)

  /** What the filter answers: the status, the envelope, and whether the
      internal-error log line is written. */
  datatype Reply<B> = Reply(status: int, body: ErrorBody<B>, logged: bool)

  const INTERNAL_SERVER_ERROR: int := 500
  const FALLBACK_CODE: string := "INTERNAL_SERVER_ERROR"
  const FALLBACK_MESSAGE: string := "Internal server error."

  /** Index of the first key whose value is strictly equal to the status
      number, or -1. A string value never equals a number. */
  function FirstKeyFor(table: StatusTable, status: int): (k: int)
    ensures -1 <= k < |table|
    ensures k >= 0 ==> table[k].1 == Num(status)
    ensures forall j :: 0 <= j < |table| && (k < 0 || j < k) ==> table[j].1 != Num(status)
    decreases |table|
  {
    if |table| == 0 then -1
    else if table[0].1 == Num(status) then 0
    else
      var k := FirstKeyFor(table[1..], status);
      if k < 0 then -1 else k + 1
  }

  /** `Object.keys(HttpStatus).find(...)`: the first key naming the status,
      if any. */
  function FindCode(table: StatusTable, status: int): (r: Option<string>)
    ensures r.Some? <==> exists i :: 0 <= i < |table| && table[i].1 == Num(status)
    ensures r.Some? ==> exists i :: 0 <= i < |table| && table[i] == (r.value, Num(status))
                                    && forall j :: 0 <= j < i ==> table[j].1 != Num(status)
  {
    var k := FirstKeyFor(table, status);
    if k < 0 then None else Some(table[k].0)
  }

  /** The status the response carries. */
  function StatusOf<B>(exception: Thrown<B>): (s: int)
    ensures exception.HttpException? ==> s == exception.status
    ensures exception.NonHttp? ==> s == INTERNAL_SERVER_ERROR
  {
    match exception
    case HttpException(status, _, _) => status
    case NonHttp(_, _) => INTERNAL_SERVER_ERROR
  }

  /** `parseHttpError`: the envelope for an exception answered with the
      given status. */
  function ParseHttpError<B>(table: StatusTable, exception: Thrown<B>, status: int): (e: ErrorBody<B>)
    ensures e.code == FALLBACK_CODE || exists i :: 0 <= i < |table| && table[i] == (e.code, Num(status))
    ensures (forall i :: 0 <= i < |table| ==> table[i].1 != Num(status)) ==> e.code == FALLBACK_CODE
    ensures e.message != ""
    ensures exception.message != "" ==> e.message == exception.message
    ensures exception.message == "" ==> e.message == FALLBACK_MESSAGE
    ensures exception.HttpException? ==> e.errors == ResponseBody(exception.response)
    ensures exception.NonHttp? ==> e.errors == RawException(exception)
  {
    var found := FindCode(table, status);
    ErrorBody(
      code := if found.Some? && found.value != "" then found.value else FALLBACK_CODE,
      message := OrDefault(exception.message, FALLBACK_MESSAGE),
      errors := match exception
                case HttpException(_, _, response) => ResponseBody(response)
                case NonHttp(_, _) => RawException(exception))
  }

  /** `catch`: the whole answer to a thrown value. */
  function Catch<B>(table: StatusTable, exception: Thrown<B>): (r: Reply<B>)
    ensures r.status == StatusOf(exception)
    ensures r.logged <==> r.status == INTERNAL_SERVER_ERROR
    ensures r.body == ParseHttpError(table, exception, r.status)
  {
    var status := StatusOf(exception);
    Reply(status, ParseHttpError(table, exception, status), status == INTERNAL_SERVER_ERROR)
  }

  /** The symbolic code is the first non-empty key whose value is the
      response status, and the fallback code when there is none. */
  lemma CodeIsFirstMatchingKey<B>(table: StatusTable, exception: Thrown<B>, i: int)
    requires 0 <= i < |table|
    requires table[i].1 == Num(StatusOf(exception)) && table[i].0 != ""
    requires forall j :: 0 <= j < i ==> table[j].1 != Num(StatusOf(exception))
    ensures Catch(table, exception).body.code == table[i].0
  {
    var k := FirstKeyFor(table, StatusOf(exception));
    assert k == i;
  }

  /** The enumeration with its reverse-mapping keys dropped. */
  function WithoutReverseKeys(table: StatusTable): (t: StatusTable)
    ensures forall i :: 0 <= i < |t| ==> t[i].1.Num?
    ensures |t| <= |table|
    decreases |table|
  {
    if |table| == 0 then []
    else if table[0].1.Num? then [table[0]] + WithoutReverseKeys(table[1..])
    else WithoutReverseKeys(table[1..])
  }

  /** Reverse-mapping keys never match a status: removing them leaves the
      lookup unchanged. */
  lemma {:induction false} ReverseKeysNeverMatch(table: StatusTable, status: int)
    ensures FindCode(WithoutReverseKeys(table), status) == FindCode(table, status)
    decreases |table|
  {
    if |table| > 0 {
      ReverseKeysNeverMatch(table[1..], status);
    }
  }

  /** The code depends on nothing but the status and the enumeration: two
      exceptions answered with the same status get the same code, whatever
      their kind, message or body. */
  lemma CodeDependsOnlyOnStatus<B>(table: StatusTable, e1: Thrown<B>, e2: Thrown<B>)
    requires StatusOf(e1) == StatusOf(e2)
    ensures Catch(table, e1).body.code == Catch(table, e2).body.code
    ensures Catch(table, e1).status == Catch(table, e2).status
  {
  }

  /** Only status 500 is logged: another 5xx, or any 4xx, is not. */
  lemma LoggedExactlyForInternalServerError<B>(table: StatusTable, exception: Thrown<B>)
    ensures Catch(table, exception).logged <==> (exception.NonHttp? || exception.status == 500)
  {
  }
}

=== FILE: format_errors.dfy ===
/** Flattening of class-validator's error tree into the nested
    property-to-message record that becomes the `errors` field of a
    validation failure (`formatErrors`). */
module ValidationErrors {

  /** A violated constraint: its name (`isInt`, ...) and its message. */
  datatype Constraint = Constraint(name: string, message: string)

  /** One node of the error tree. `constraints` lists the violated
      constraints in the insertion order of the source's record, and
      `children` the errors of a nested object; an absent list is modelled
      as the empty one, which the source treats identically. */
  datatype ValidationError = ValidationError(
    property: string,
    constraints: seq<Constraint>,
    children: seq<ValidationError>)

  /** A value of the flattened record: a message, `undefined` (a leaf with
      no constraint), or the flattened record of the node's children. */
  datatype Entry = Message(text: string) | Undefined | Nested(errors: map<string, Entry>)

  type ErrorMap = map<string, Entry>

  /** The property names of the given nodes. */
  ghost function Properties(errors: seq<ValidationError>): set<string> {
    set i | 0 <= i < |errors| :: errors[i].property
  }

  lemma PropertiesOfConcat(a: seq<ValidationError>, b: seq<ValidationError>)
    ensures Properties(a + b) == Properties(a) + Properties(b)
  {
    forall p | p in Properties(a + b) ensures p in Properties(a) + Properties(b) {
      var i :| 0 <= i < |a + b| && (a + b)[i].property == p;
      if i >= |a| { assert b[i - |a|] == (a + b)[i]; } else { assert a[i] == (a + b)[i]; }
    }
    forall p | p in Properties(a) ensures p in Properties(a + b) {
      var i :| 0 <= i < |a| && a[i].property == p;
      assert (a + b)[i] == a[i];
    }
    forall p | p in Properties(b) ensures p in Properties(a + b) {
      var i :| 0 <= i < |b| && b[i].property == p;
      assert (a + b)[|a| + i] == b[i];
    }
  }

  /** Node `i` is the last of `errors` that names its property. */
  ghost predicate LastOfItsProperty(errors: seq<ValidationError>, i: int)
    requires 0 <= i < |errors|
  {
    forall j :: i < j < |errors| ==> errors[j].property != errors[i].property
  }

  /** `formatErrors`: a left fold over the nodes, starting from the empty
      record. */
  function FormatErrors(errors: seq<ValidationError>): (r: ErrorMap)
    ensures r.Keys == Properties(errors)
    decreases errors, 1
  {
    Reduce(map[], errors)
  }

  /** One step of the fold per node: the accumulator is copied first and the
      node's property written last, so a later node overwrites an earlier
      one with the same property. */
  function Reduce(acc: ErrorMap, errors: seq<ValidationError>): (r: ErrorMap)
    ensures r.Keys == acc.Keys + Properties(errors)
    decreases errors, 0
  {
    if |errors| == 0 then acc
    else
      var rest := Reduce(acc[errors[0].property := EntryFor(errors[0])], errors[1..]);
      assert Properties(errors) == {errors[0].property} + Properties(errors[1..]) by {
        forall p | p in Properties(errors)
          ensures p in {errors[0].property} + Properties(errors[1..])
        {
          var i :| 0 <= i < |errors| && errors[i].property == p;
          if i > 0 { assert errors[1..][i - 1] == errors[i]; }
        }
        forall p | p in Properties(errors[1..])
          ensures p in Properties(errors)
        {
          var i :| 0 <= i < |errors[1..]| && errors[1..][i].property == p;
          assert errors[i + 1] == errors[1..][i];
        }
      }
      rest
  }

  /** The value one node contributes: its children's record when it has
      children (its own constraints are then ignored), otherwise its first
      constraint message, or `undefined` when it has none. */
  function EntryFor(e: ValidationError): (v: Entry)
    ensures |e.children| > 0 ==> v.Nested? && v.errors.Keys == Properties(e.children)
    ensures |e.children| == 0 ==> (v.Message? <==> |e.constraints| > 0)
    ensures |e.children| == 0 && |e.constraints| == 0 ==> v == Undefined
    ensures v.Message? ==> |e.constraints| > 0 && v.text == e.constraints[0].message
    decreases e
  {
    if |e.children| > 0 then Nested(FormatErrors(e.children))
    else if |e.constraints| > 0 then Message(e.constraints[0].message)
    else Undefined
  }

  /** A property that no node names keeps whatever the accumulator held. */
  lemma {:induction false} ReduceKeepsUntouched(acc: ErrorMap, errors: seq<ValidationError>, p: string)
    requires forall j :: 0 <= j < |errors| ==> errors[j].property != p
    requires p in acc
    ensures p in Reduce(acc, errors) && Reduce(acc, errors)[p] == acc[p]
    decreases errors
  {
    if |errors| > 0 {
      var acc' := acc[errors[0].property := EntryFor(errors[0])];
      assert acc'[p] == acc[p];
      forall j | 0 <= j < |errors[1..]|
        ensures errors[1..][j].property != p
      {
        assert errors[1..][j] == errors[j + 1];
      }
      ReduceKeepsUntouched(acc', errors[1..], p);
    }
  }

  /** The fold's value for a property is the entry of the last node that
      names it. */
  lemma {:induction false} ReduceLastWins(acc: ErrorMap, errors: seq<ValidationError>, i: int)
    requires 0 <= i < |errors|
    requires LastOfItsProperty(errors, i)
    ensures errors[i].property in Reduce(acc, errors)
    ensures Reduce(acc, errors)[errors[i].property] == EntryFor(errors[i])
    decreases errors
  {
    var acc' := acc[errors[0].property := EntryFor(errors[0])];
    if i == 0 {
      forall j | 0 <= j < |errors[1..]|
        ensures errors[1..][j].property != errors[0].property
      {
        assert errors[1..][j] == errors[j + 1];
      }
      ReduceKeepsUntouched(acc', errors[1..], errors[0].property);
    } else {
      assert errors[1..][i - 1] == errors[i];
      forall j | i - 1 < j < |errors[1..]|
        ensures errors[1..][j].property != errors[1..][i - 1].property
      {
        assert errors[1..][j] == errors[j + 1];
      }
      ReduceLastWins(acc', errors[1..], i - 1);
    }
  }

  /** Overwrite order: among siblings that share a property, the last one
      decides the value. */
  lemma LastSiblingWins(errors: seq<ValidationError>, i: int)
    requires 0 <= i < |errors|
    requires LastOfItsProperty(errors, i)
    ensures FormatErrors(errors)[errors[i].property] == EntryFor(errors[i])
  {
    ReduceLastWins(map[], errors, i);
  }

  /** Reference reading of the overwrite order, independent of the fold:
      the index of the last node naming `p`, or -1 when none does. */
  ghost function LastIndexOf(errors: seq<ValidationError>, p: string): (k: int)
    ensures -1 <= k < |errors|
    ensures k >= 0 ==> errors[k].property == p && LastOfItsProperty(errors, k)
    ensures k < 0 ==> forall j :: 0 <= j < |errors| ==> errors[j].property != p
    decreases |errors|
  {
    if |errors| == 0 then -1
    else if errors[|errors| - 1].property == p then |errors| - 1
    else LastIndexOf(errors[..|errors| - 1], p)
  }

  /** The record holds `p` exactly when some node names it, and then it
      holds the entry of the last such node. */
  lemma FormatErrorsLookup(errors: seq<ValidationError>, p: string)
    ensures p in FormatErrors(errors) <==> LastIndexOf(errors, p) >= 0
    ensures p in FormatErrors(errors) ==> FormatErrors(errors)[p] == EntryFor(errors[LastIndexOf(errors, p)])
  {
    var k := LastIndexOf(errors, p);
    if k >= 0 {
      LastSiblingWins(errors, k);
    } else {
      assert p !in Properties(errors);
    }
  }

  /** No validation errors give an empty record. */
  lemma EmptyInputEmptyRecord()
    ensures FormatErrors([]) == map[]
  {
  }

  /** A node with children is flattened recursively, whatever its own
      constraints say. */
  lemma ChildrenOverrideConstraints(e: ValidationError, cs: seq<Constraint>)
    requires |e.children| > 0
    ensures EntryFor(e.(constraints := cs)) == EntryFor(e) == Nested(FormatErrors(e.children))
  {
  }
}

=== FILE: gateway.dfy ===
/** The gateway's request path end to end: query validation with the
    `exceptionFactory` of the bootstrap, the movie service, and the global
    exception filter that turns every thrown value into the response. */
module Gateway {
  import opened Base
  import opened ValidationErrors
  import opened ExceptionFilter
  import opened MovieQuery
  import opened MovieService

  /** The object the validation pipe's `exceptionFactory` builds. */
  datatype ValidationEnvelope = ValidationEnvelope(code: string, status: int, message: string, errors: ErrorMap)

  /** The bodies carried by what the gateway throws. */
  datatype Body =
    | ServiceBody(error: ServiceError)
    | Envelope(envelope: ValidationEnvelope)
    | FieldErrors(errors: ErrorMap)

  /** The answer to one request: the payload, or the filter's reply. */
  datatype Response<D> = Data(payload: D) | Error(reply: Reply<Body>)

  /** The answer together with the upstream requests made on the way. */
  datatype Exchange<D> = Exchange(response: Response<D>, trace: seq<Request>)

  const VALIDATION_ERROR: string := "VALIDATION_ERROR"
  const VALIDATION_MESSAGE: string := "Validation error"
  const UNPROCESSABLE_ENTITY: int := 422
  const BAD_REQUEST: int := 400

  /** `exceptionFactory`: the validation envelope for a list of errors. */
  function ExceptionFactory(errors: seq<ValidationError>): (v: ValidationEnvelope)
    ensures v.code == VALIDATION_ERROR && v.status == UNPROCESSABLE_ENTITY && v.message == VALIDATION_MESSAGE
    ensures v.errors.Keys == Properties(errors)
    ensures forall i :: 0 <= i < |errors| && LastOfItsProperty(errors, i) ==>
              v.errors[errors[i].property] == EntryFor(errors[i])
  {
    var v := ValidationEnvelope(VALIDATION_ERROR, UNPROCESSABLE_ENTITY, VALIDATION_MESSAGE, FormatErrors(errors));
    forall i | 0 <= i < |errors| && LastOfItsProperty(errors, i)
      ensures v.errors[errors[i].property] == EntryFor(errors[i])
    {
      LastSiblingWins(errors, i);
    }
    v
  }

  /** The framework exception behind each service failure; its response
      body is abstracted as the failure itself. */
  function ThrownBy(e: ServiceError): (t: Thrown<Body>)
    ensures t.HttpException? && t.message == e.message && t.response == ServiceBody(e)
    ensures t.status == (if e.BadRequest? then BAD_REQUEST else INTERNAL_SERVER_ERROR)
  {
    match e
    case BadRequest(m) => HttpException(BAD_REQUEST, m, ServiceBody(e))
    case InternalServerError(m) => HttpException(INTERNAL_SERVER_ERROR, m, ServiceBody(e))
  }

  /** As written: the pipe throws the envelope itself, a plain object and
      not an `HttpException`, so the catch-all filter answers it as an
      internal error: status 500, logged, with the whole envelope (which
      announces 422) nested as the raw exception. */
  function ValidationReplyAsWritten(table: StatusTable, errors: seq<ValidationError>): (r: Reply<Body>)
    ensures r.status == INTERNAL_SERVER_ERROR && r.logged
    ensures r.body.code == FALLBACK_CODE
            || exists i :: 0 <= i < |table| && table[i] == (r.body.code, Num(INTERNAL_SERVER_ERROR))
    ensures r.body.message == VALIDATION_MESSAGE
    ensures r.body.errors == RawException(NonHttp(VALIDATION_MESSAGE, Envelope(ExceptionFactory(errors))))
    ensures r.body.errors.exception.raw.envelope.status == UNPROCESSABLE_ENTITY
  {
    Catch(table, NonHttp(VALIDATION_MESSAGE, Envelope(ExceptionFactory(errors))))
  }

  /** The discrepancy on a concrete input: a non-integer page yields a
      response whose status disagrees with the status its own envelope
      announces, and with the corrected reply's. */
  lemma NonIntegerPageAnswered500(table: StatusTable)
    ensures var es := Normalise(RawQuery(Some(Fraction), None, None, None)).error;
            && ValidationReplyAsWritten(table, es).status == 500
            && ValidationReplyAsWritten(table, es).body.errors.exception.raw.envelope.status == 422
            && ValidationReply(es).status == 422
  {
    assert Normalise(RawQuery(Some(Fraction), None, None, None)).Failure?;
  }

  /** Corrected: a validation failure is answered with 422, the
      VALIDATION_ERROR code, the fixed message and the flattened errors,
      and is not logged as an internal error. */
  function ValidationReply(errors: seq<ValidationError>): (r: Reply<Body>)
    ensures r.status == UNPROCESSABLE_ENTITY && !r.logged
    ensures r.body.code == VALIDATION_ERROR && r.body.message == VALIDATION_MESSAGE
    ensures r.body.errors.ResponseBody? && r.body.errors.body.FieldErrors?
    ensures r.body.errors.body.errors.Keys == Properties(errors)
    ensures r.body.errors.body.errors == ExceptionFactory(errors).errors
  {
    var v := ExceptionFactory(errors);
    Reply(v.status, ErrorBody(v.code, v.message, ResponseBody(FieldErrors(v.errors))), false)
  }

  /** The controller's answer for a service call. */
  function Respond<D>(table: StatusTable, c: Call<D>): (x: Exchange<D>)
    ensures x.trace == c.trace
    ensures c.result.Success? ==> x.response == Data(c.result.value)
    ensures c.result.Failure? ==>
              && x.response.Error?
              && x.response.reply.status == StatusOf(ThrownBy(c.result.error))
              && x.response.reply.body.message == OrDefault(c.result.error.message, FALLBACK_MESSAGE)
  {
    match c.result
    case Success(d) => Exchange(Data(d), c.trace)
    case Failure(e) => Exchange(Error(Catch(table, ThrownBy(e))), c.trace)
  }

  /** GET /movie/popular, as written: a rejected query reaches the filter
      as the plain validation envelope and is answered 500 and logged,
      before any upstream request. */
  function Popular<D>(table: StatusTable, token: string, raw: RawQuery, reply: Upstream<D>): (x: Exchange<D>)
    ensures !Accepted(raw) ==>
              && x.trace == [] && x.response.Error?
              && x.response.reply.status == INTERNAL_SERVER_ERROR && x.response.reply.logged
              && x.response.reply.body.message == VALIDATION_MESSAGE
    ensures Accepted(raw) ==> |x.trace| == 1 && x.trace[0].path == POPULAR_PATH
    ensures Accepted(raw) && reply.Ok? ==> x.response == Data(reply.data)
  {
    match Normalise(raw)
    case Failure(es) => Exchange(Error(ValidationReplyAsWritten(table, es)), [])
    case Success(dto) => Respond(table, GetPopularMovies(token, dto, reply))
  }

  /** GET /movie/popular with the corrected validation reply: a rejected
      query is answered 422 and not logged; an accepted one is answered
      as the route does as written. */
  function PopularCorrected<D>(table: StatusTable, token: string, raw: RawQuery, reply: Upstream<D>): (x: Exchange<D>)
    ensures !Accepted(raw) ==>
              && x.trace == [] && x.response.Error?
              && x.response.reply.status == UNPROCESSABLE_ENTITY && !x.response.reply.logged
              && x.response.reply.body.code == VALIDATION_ERROR
    ensures Accepted(raw) ==> x == Popular(table, token, raw, reply)
  {
    match Normalise(raw)
    case Failure(es) => Exchange(Error(ValidationReply(es)), [])
    case Success(dto) => Respond(table, GetPopularMovies(token, dto, reply))
  }

  /** GET /movie/search, as written: a rejected query is answered 500 and
      logged, like the popular route. */
  function Search<D>(table: StatusTable, token: string, raw: RawQuery, reply: Upstream<D>): (x: Exchange<D>)
    ensures !Accepted(raw) ==>
              && x.trace == [] && x.response.Error?
              && x.response.reply.status == INTERNAL_SERVER_ERROR && x.response.reply.logged
              && x.response.reply.body.message == VALIDATION_MESSAGE
    ensures Accepted(raw) ==> (x.trace == [] <==> raw.query.None? || raw.query.value.s == "")
    ensures Accepted(raw) && x.trace != [] && reply.Ok? ==> x.response == Data(reply.data)
  {
    match Normalise(raw)
    case Failure(es) => Exchange(Error(ValidationReplyAsWritten(table, es)), [])
    case Success(dto) => Respond(table, SearchMovies(token, dto, reply))
  }

  /** GET /movie/search with the corrected validation reply. */
  function SearchCorrected<D>(table: StatusTable, token: string, raw: RawQuery, reply: Upstream<D>): (x: Exchange<D>)
    ensures !Accepted(raw) ==>
              && x.trace == [] && x.response.Error?
              && x.response.reply.status == UNPROCESSABLE_ENTITY && !x.response.reply.logged
              && x.response.reply.body.code == VALIDATION_ERROR
    ensures Accepted(raw) ==> x == Search(table, token, raw, reply)
  {
    match Normalise(raw)
    case Failure(es) => Exchange(Error(ValidationReply(es)), [])
    case Success(dto) => Respond(table, SearchMovies(token, dto, reply))
  }

  /** GET /movie/{id}. */
  function Details<D>(table: StatusTable, token: string, id: int, reply: Upstream<D>): (x: Exchange<D>)
    ensures |x.trace| == 1 && x.trace[0].params == None
    ensures reply.Ok? ==> x.response == Data(reply.data)
    ensures reply.Err? ==> x.response.Error? && x.response.reply.status == INTERNAL_SERVER_ERROR
  {
    Respond(table, GetMovieDetails(token, id, reply))
  }

  /** A search without search text is answered 400 "Search query is
      required" under the enumeration's name for 400, is not logged, and
      makes no upstream request. */
  lemma SearchWithoutQueryIsBadRequest<D>(table: StatusTable, token: string, raw: RawQuery, reply: Upstream<D>, i: int)
    requires Accepted(raw) && (raw.query.None? || raw.query.value.s == "")
    requires 0 <= i < |table| && table[i] == ("BAD_REQUEST", Num(BAD_REQUEST))
    requires forall j :: 0 <= j < i ==> table[j].1 != Num(BAD_REQUEST)
    ensures Search(table, token, raw, reply).trace == []
    ensures Search(table, token, raw, reply).response.Error?
    ensures Search(table, token, raw, reply).response.reply.status == BAD_REQUEST
    ensures Search(table, token, raw, reply).response.reply.body.code == "BAD_REQUEST"
    ensures Search(table, token, raw, reply).response.reply.body.message == QUERY_REQUIRED
    ensures !Search(table, token, raw, reply).response.reply.logged
  {
    var dto := Normalise(raw).value;
    assert !HasQuery(dto);
    CodeIsFirstMatchingKey(table, ThrownBy(BadRequest(QUERY_REQUIRED)), i);
  }

  /** An upstream failure on the popular route is answered 500 with the
      fixed message, logged, and with nothing of the upstream error in the
      body: two different upstream errors give the same response. */
  lemma PopularUpstreamFailureIsHidden<D>(table: StatusTable, token: string, raw: RawQuery, e1: Upstream<D>, e2: Upstream<D>)
    requires Accepted(raw) && e1.Err? && e2.Err?
    ensures Popular(table, token, raw, e1).response.Error?
    ensures Popular(table, token, raw, e1).response.reply.status == INTERNAL_SERVER_ERROR
    ensures Popular(table, token, raw, e1).response.reply.body.message == POPULAR_FAILED
    ensures Popular(table, token, raw, e1).response.reply.logged
    ensures Popular(table, token, raw, e1).response == Popular(table, token, raw, e2).response
  {
  }
}

=== FILE: movie_query.dfy ===
/** The query object of the movie routes (`MovieQueryDTO`): field
    defaults and the per-field type constraints that validation enforces.
    Inputs arrive already coerced to a JavaScript type; how strings are
    coerced is the transformation library's business and is not modelled. */
module MovieQuery {
  import opened Base
  import opened ValidationErrors

  /** A query field's value after coercion. `Fraction` stands for every
      number that is not an integer, NaN included. */
  datatype Value = Integer(n: int) | Fraction | Boolean(b: bool) | Text(s: string)

  /** The fields as supplied; None when a field is absent. */
  datatype RawQuery = RawQuery(
    page: Option<Value>,
    includeAdult: Option<Value>,
    language: Option<Value>,
    query: Option<Value>)

  /** A validated query. */
  datatype MovieQueryDTO = MovieQueryDTO(
    page: int,
    includeAdult: bool,
    language: string,
    query: Option<string>)

  const DEFAULT_PAGE: int := 1
  const DEFAULT_INCLUDE_ADULT: bool := false
  const DEFAULT_LANGUAGE: string := "en-US"

  /** The constraint each field violates, with the validation library's
      default message. */
  const IS_INT := Constraint("isInt", "page must be an integer number")
  const IS_BOOLEAN := Constraint("isBoolean", "includeAdult must be a boolean value")
  const LANGUAGE_IS_STRING := Constraint("isString", "language must be a string")
  const QUERY_IS_STRING := Constraint("isString", "query must be a string")

  /** `page` carries no optional marker, but an absent page keeps its
      default 1, which is an integer; a supplied one must be an integer. */
  predicate PageAccepted(v: Option<Value>) {
    v.None? || v.value.Integer?
  }

  predicate IncludeAdultAccepted(v: Option<Value>) {
    v.None? || v.value.Boolean?
  }

  predicate TextAccepted(v: Option<Value>) {
    v.None? || v.value.Text?
  }

  predicate Accepted(raw: RawQuery) {
    PageAccepted(raw.page) && IncludeAdultAccepted(raw.includeAdult)
    && TextAccepted(raw.language) && TextAccepted(raw.query)
  }

  /** The names of the fields whose value is rejected. */
  ghost function RejectedFields(raw: RawQuery): set<string> {
    (if PageAccepted(raw.page) then {} else {"page"})
    + (if IncludeAdultAccepted(raw.includeAdult) then {} else {"includeAdult"})
    + (if TextAccepted(raw.language) then {} else {"language"})
    + (if TextAccepted(raw.query) then {} else {"query"})
  }

  /** The error node of one field, or nothing when it is accepted. */
  function Check(property: string, accepted: bool, constraint: Constraint): (es: seq<ValidationError>)
    ensures accepted <==> es == []
    ensures !accepted ==> |es| == 1 && es[0].property == property && es[0].children == []
                          && es[0].constraints == [constraint]
    ensures Properties(es) == if accepted then {} else {property}
  {
    if accepted then [] else [ValidationError(property, [constraint], [])]
  }

  /** The validation errors of a raw query, in field declaration order. */
  function Violations(raw: RawQuery): (es: seq<ValidationError>)
    ensures es == [] <==> Accepted(raw)
    ensures forall i :: 0 <= i < |es| ==> es[i].children == [] && |es[i].constraints| == 1
    ensures Properties(es) == RejectedFields(raw)
  {
    var page := Check("page", PageAccepted(raw.page), IS_INT);
    var adult := Check("includeAdult", IncludeAdultAccepted(raw.includeAdult), IS_BOOLEAN);
    var language := Check("language", TextAccepted(raw.language), LANGUAGE_IS_STRING);
    var query := Check("query", TextAccepted(raw.query), QUERY_IS_STRING);
    var es := page + adult + language + query;
    PropertiesOfConcat(page + adult + language, query);
    PropertiesOfConcat(page + adult, language);
    PropertiesOfConcat(page, adult);
    es
  }

  /** Builds the query object: absent fields take their defaults, supplied
      ones must have the field's type. */
  function Normalise(raw: RawQuery): (r: Result<MovieQueryDTO, seq<ValidationError>>)
    ensures r.Success? <==> Accepted(raw)
    ensures r.Success? ==>
      && r.value.page == (if raw.page.None? then DEFAULT_PAGE else raw.page.value.n)
      && r.value.includeAdult == (if raw.includeAdult.None? then DEFAULT_INCLUDE_ADULT else raw.includeAdult.value.b)
      && r.value.language == (if raw.language.None? then DEFAULT_LANGUAGE else raw.language.value.s)
      && r.value.query == (if raw.query.None? then None else Some(raw.query.value.s))
    ensures r.Failure? ==> r.error != [] && Properties(r.error) == RejectedFields(raw)
  {
    var es := Violations(raw);
    if es != [] then Failure(es)
    else
      Success(MovieQueryDTO(
        page := match raw.page case None => DEFAULT_PAGE case Some(v) => v.n,
        includeAdult := match raw.includeAdult case None => DEFAULT_INCLUDE_ADULT case Some(v) => v.b,
        language := match raw.language case None => DEFAULT_LANGUAGE case Some(v) => v.s,
        query := match raw.query case None => None case Some(v) => Some(v.s)))
  }

  /** An empty query string gives page 1, no adult titles, "en-US" and no
      search text. */
  lemma AllDefaults()
    ensures Normalise(RawQuery(None, None, None, None))
            == Success(MovieQueryDTO(1, false, "en-US", None))
  {
  }

  /** A supplied page that is not an integer is always rejected, and the
      formatted errors then name `page` with its constraint message. */
  lemma NonIntegerPageRejected(raw: RawQuery)
    requires raw.page.Some? && !raw.page.value.Integer?
    ensures Normalise(raw).Failure?
    ensures FormatErrors(Normalise(raw).error)["page"] == Message(IS_INT.message)
  {
    var es := Normalise(raw).error;
    assert es[0].property == "page";
    FormatErrorsLookup(es, "page");
    var k := LastIndexOf(es, "page");
    assert k == 0 by {
      forall j | 0 < j < |es| ensures es[j].property != "page" {
        assert es[j].property in {"includeAdult", "language", "query"};
      }
    }
  }

  /** The record sent back for a rejected query names exactly the rejected
      fields, each with a message. */
  lemma FormattedViolations(raw: RawQuery)
    ensures FormatErrors(Violations(raw)).Keys == RejectedFields(raw)
    ensures forall p :: p in FormatErrors(Violations(raw)) ==> FormatErrors(Violations(raw))[p].Message?
  {
    var es := Violations(raw);
    forall p | p in FormatErrors(es) ensures FormatErrors(es)[p].Message? {
      FormatErrorsLookup(es, p);
    }
  }
}

=== FILE: movie_service.dfy ===
/** The gateway's movie service (`MovieService`): it builds one outbound
    request per operation, returns the upstream payload unchanged, and
    hides every upstream failure behind a fixed, operation-specific 500.
    The HTTP client is replaced by a recorded trace of requests and the
    abstract outcome of the call. */
module MovieService {
  import opened Base
  import opened MovieQuery
  import Decimal

  /** One outbound GET to the upstream provider. `params` is absent when
      the request carries no query parameters. */
  datatype Request = Request(verb: string, path: string, params: Option<MovieQueryDTO>, headers: seq<Header>)

  /** What the upstream call produced: the response data, or the rejection
      with its status (absent for a transport failure) and message. */
  datatype Upstream<D> = Ok(data: D) | Err(status: Option<int>, message: string)

  /** The framework exceptions the service throws. */
  datatype ServiceError = BadRequest(message: string) | InternalServerError(message: string)

  /** The operation's result together with the requests it issued. */
  datatype Call<D> = Call(result: Result<D, ServiceError>, trace: seq<Request>)

  /** The upstream provider's paths (the gateway's own routes mirror some
      of them; EdgeProxy holds those). */
  const POPULAR_PATH: string := "/movie/popular"
  const SEARCH_PATH: string := "/search/movie"
  const DETAILS_PREFIX: string := "/movie/"

  const POPULAR_FAILED: string := "Failed to fetch popular movies"
  const SEARCH_FAILED: string := "Failed to search for movies"
  const DETAILS_FAILED: string := "Failed to fetch movie details"
  const QUERY_REQUIRED: string := "Search query is required"

  /** A request carries the JSON headers and the bearer token taken from
      the `tmdb.token` configuration entry. */
  predicate Authorised(req: Request, token: string) {
    && Header("Accept", JSON) in req.headers
    && Header("Content-Type", JSON) in req.headers
    && Header("Authorization", "Bearer " + token) in req.headers
  }

  function Headers(token: string): seq<Header> {
    [Header("Accept", JSON), Header("Content-Type", JSON), Header("Authorization", "Bearer " + token)]
  }

  /** The shared try/catch: record the GET, pass the data through on
      success, and replace any failure by the fixed message. */
  function Forward<D>(req: Request, reply: Upstream<D>, failure: string): (c: Call<D>)
    ensures c.trace == [req]
    ensures c.result.Success? <==> reply.Ok?
    ensures reply.Ok? ==> c.result.value == reply.data
    ensures reply.Err? ==> c.result.error == InternalServerError(failure)
  {
    match reply
    case Ok(data) => Call(Success(data), [req])
    case Err(_, _) => Call(Failure(InternalServerError(failure)), [req])
  }

  /** `getPopularMovies`: GET /movie/popular with the query object as it is. */
  function GetPopularMovies<D>(token: string, dto: MovieQueryDTO, reply: Upstream<D>): (c: Call<D>)
    ensures |c.trace| == 1
    ensures c.trace[0].verb == "GET" && c.trace[0].path == POPULAR_PATH
    ensures c.trace[0].params == Some(dto) && Authorised(c.trace[0], token)
    ensures c.result.Success? <==> reply.Ok?
    ensures reply.Ok? ==> c.result.value == reply.data
    ensures reply.Err? ==> c.result.error == InternalServerError(POPULAR_FAILED)
  {
    Forward(Request("GET", POPULAR_PATH, Some(dto), Headers(token)), reply, POPULAR_FAILED)
  }

  /** The search text is present and not empty (JavaScript truthiness). */
  predicate HasQuery(dto: MovieQueryDTO) {
    dto.query.Some? && dto.query.value != ""
  }

  /** `searchMovies`: fails before any request without search text, else
      GET /search/movie with the whole query object. */
  function SearchMovies<D>(token: string, dto: MovieQueryDTO, reply: Upstream<D>): (c: Call<D>)
    ensures !HasQuery(dto) ==> c == Call(Failure(BadRequest(QUERY_REQUIRED)), [])
    ensures HasQuery(dto) ==>
      && |c.trace| == 1
      && c.trace[0].verb == "GET" && c.trace[0].path == SEARCH_PATH
      && c.trace[0].params == Some(dto) && Authorised(c.trace[0], token)
      && (c.result.Success? <==> reply.Ok?)
      && (reply.Ok? ==> c.result.value == reply.data)
      && (reply.Err? ==> c.result.error == InternalServerError(SEARCH_FAILED))
  {
    if !HasQuery(dto) then Call(Failure(BadRequest(QUERY_REQUIRED)), [])
    else Forward(Request("GET", SEARCH_PATH, Some(dto), Headers(token)), reply, SEARCH_FAILED)
  }

  /** `getMovieDetails`: GET /movie/{id} with no query parameters. */
  function GetMovieDetails<D>(token: string, id: int, reply: Upstream<D>): (c: Call<D>)
    ensures |c.trace| == 1
    ensures c.trace[0].verb == "GET" && c.trace[0].params == None && Authorised(c.trace[0], token)
    ensures |c.trace[0].path| > |DETAILS_PREFIX| && c.trace[0].path[..|DETAILS_PREFIX|] == DETAILS_PREFIX
    ensures Decimal.ParseInt(c.trace[0].path[|DETAILS_PREFIX|..]) == Some(id)
    ensures Decimal.Canonical(c.trace[0].path[|DETAILS_PREFIX|..])
    ensures c.result.Success? <==> reply.Ok?
    ensures reply.Ok? ==> c.result.value == reply.data
    ensures reply.Err? ==> c.result.error == InternalServerError(DETAILS_FAILED)
  {
    var path := DETAILS_PREFIX + Decimal.IntToDecimal(id);
    assert path[|DETAILS_PREFIX|..] == Decimal.IntToDecimal(id);
    Decimal.IntRoundTrip(id);
    Forward(Request("GET", path, None, Headers(token)), reply, DETAILS_FAILED)
  }

  /** Distinct ids are fetched from distinct paths. */
  lemma DetailsPathsDistinct<D>(token: string, a: int, b: int, ra: Upstream<D>, rb: Upstream<D>)
    requires a != b
    ensures GetMovieDetails(token, a, ra).trace[0].path != GetMovieDetails(token, b, rb).trace[0].path
  {
  }

  /** The upstream error's status and message never reach the caller: any
      two failures of the same operation give the same result. */
  lemma FailuresAreOpaque<D>(token: string, dto: MovieQueryDTO, id: int, e1: Upstream<D>, e2: Upstream<D>)
    requires e1.Err? && e2.Err?
    ensures GetPopularMovies(token, dto, e1).result == GetPopularMovies(token, dto, e2).result
    ensures SearchMovies(token, dto, e1).result == SearchMovies(token, dto, e2).result
    ensures GetMovieDetails(token, id, e1).result == GetMovieDetails(token, id, e2).result
  {
  }

  /** Each operation issues at most one request, and every request it
      issues is an authorised GET. */
  lemma AtMostOneAuthorisedCall<D>(token: string, dto: MovieQueryDTO, id: int, reply: Upstream<D>)
    ensures forall c :: c in {GetPopularMovies(token, dto, reply), SearchMovies(token, dto, reply),
                              GetMovieDetails(token, id, reply)} ==>
      |c.trace| <= 1 && forall req :: req in c.trace ==> req.verb == "GET" && Authorised(req, token)
  {
  }
}
